=== FILE: README.md ===
# Pattrn chatbot: proxy gateway and client message pipeline

This project models the two decision cores of a small chat front-end. The cores
are modelled independently: the client calls its completion service directly
and does not go through the proxy.

- **The proxy gateway** (`netlify/functions/claude.js`, `exports.handler`). It
  answers the CORS preflight and refuses methods other than POST with 405. A
  falsy `prompt` gets 400. A missing credential gets 500 before any upstream
  traffic. The upstream failure statuses 401, 429 and 404 keep their status;
  every other failure becomes 500 `"Server error: …"`. On success the reply text
  comes from `content[0].text`, else from `completion`, else from a fixed
  apology. Every response carries the same three CORS headers.
  - The handler is modelled as `Gateway.Handle`, a total function of the HTTP
    method, the parsed body, the credential and an abstract upstream outcome.
  - `Gateway.Gate` is the part of `Handle` that runs before the upstream call.
    It returns either a final answer (`Respond`) or the request to send
    upstream (`Forward`). So "the upstream is never called on this path" is a
    statement about `Gate`.
- **The client pipeline** (`src/App.js`).
  - `Fence.CleanJsonResponse` models the fence stripping done before
    `JSON.parse`. `String.prototype.trim()` (App.js:36) and the regex class
    `\s` (App.js:38, 41) use the same set of characters: the WhiteSpace and
    LineTerminator code points of sections 12.2 and 12.3 of ECMA-262 (2023). That set
    is `Text.IsWhitespace`: tab, line feed, vertical tab, form feed, carriage
    return, space, U+00A0, U+1680, U+2000 to U+200A, U+2028, U+2029, U+202F,
    U+205F, U+3000 and U+FEFF.
  - `Chat.Reveal` models the by-id reveal used by the greeting timers.
  - The typing queue is a state machine. `Chat.Start` is the React effect
    that arms a timer. `Chat.Fire` is that timer's callback.
  - `sendMessage` is split at its `await`. `Chat.Send` is the synchronous
    part: the guard, the user message and the history snapshot.
    `Chat.Complete` is the settlement: the queue replacement and the `finally`.
  - `Chat.Step` puts all of these into one transition function over
    `Chat.State`.

Timers are discrete events: a delay is stored as data and never waited on.
Message ids and timestamps come from the clock and the random source, so they
are parameters of the transitions. `JSON.parse` on the client is a function
parameter, `parse: string -> ParseOutcome`. On the proxy, the request body
arrives already parsed, as a `JsValues.Json` value or the parser's error
message.

Behaviour of the code worth knowing:

- The prompt check is JavaScript truthiness. Any truthy JSON value passes,
  including a number or an object, not only a non-empty string. Such a prompt
  is then interpolated into the upstream prompt text (claude.js:176). An object
  with its own `toString` property, or an array holding one at any depth, makes
  that conversion throw "Cannot convert object to primitive value", and the
  catch answers 500 before any upstream call
  (`GatewayProperties.UnconvertiblePromptIsServerError`).
- An upstream reply whose `content` is an empty array, or whose first element
  is `null`, is not given the fallback text. Reading `.text` throws, and the
  catch answers 500 (`GatewayProperties.EmptyContentIsServerError`).
- A `null` request body also throws, this time while destructuring. It
  gets 500, not 400.
- Delays are neither clamped nor defaulted.
- Revealing an absent id is a no-op, not an error (`ChatProperties.RevealAbsent`).
- An empty `messages` array gives an empty queue, with no fallback message.
- Revealing a message adds it to the end of the visible history when every
  later message is still hidden and no other message carries its id (`ChatProperties.RevealNextExtendsHistory`).
  In general it is inserted at its own position in the list.
- The timer callback appends the queue head it captured when it was armed,
  but slices the queue as it is when the callback runs. If a completion
  replaces the queue while a timer is armed, the new queue's first reply is
  dropped without being shown. For a failed request that reply is the apology,
  so no error message appears at all (`ChatProperties.CompletionDuringTypingDropsNewHead`).
  The UI disables the input while `isTyping` is set, but `sendMessage` itself
  does not check `isTyping`.

## Model

| member | source | states |
|---|---|---|
| Text.TrimStart | src/App.js:36 | the result is the suffix left after removing the longest all-whitespace prefix (the removed part is whitespace; the result is empty or starts with a non-whitespace character) |
| Text.TrimEnd | src/App.js:36 | the result is the prefix left after removing the longest all-whitespace suffix |
| Text.Trim | src/App.js:36 | `trim()` returns a contiguous piece of its input with no whitespace at either end; it is empty exactly when the input is all whitespace |
| Text.TrimPadded | src/App.js:36 | trimming whitespace padding around text with non-whitespace ends gives back that text |
| Fence.StripOpening | src/App.js:38 | `replace(/^P\s*/, '')` on a string starting with `P` removes `P` and the whitespace run after it; the rest starts with non-whitespace |
| Fence.StripClosing | src/App.js:38 | `replace(/\s*```$/, '')` cuts at the leftmost index where `\s*```$` matches, and the text is unchanged when it does not end with a fence |
| Fence.FenceStep | src/App.js:37-42 | one `if (startsWith) {...}` block returns a contiguous piece of its input, unchanged when the prefix is absent |
| Fence.CleanJsonResponse | src/App.js:35-44 | the trimmed input is returned unchanged when it does not start with a fence; the result is always a contiguous piece of the trimmed input, no longer than it |
| Fence.CleanBareObject | src/App.js:35-44 | `{…}` text with any surrounding whitespace is cleaned to itself |
| Fence.CleanJsonFencedObject | src/App.js:36-39 | `{…}` text wrapped in "```json" … "```", with any whitespace around and inside the fence, is cleaned to that text |
| Fence.CleanPlainFencedObject | src/App.js:36-43 | `{…}` text wrapped in "```" … "```", with any whitespace around and inside the fence, is cleaned to that text |
| JsValues.Read | netlify/functions/claude.js:221-223 | reading a property throws exactly on `undefined` or `null`, gives an object's own property, and gives `undefined` otherwise |
| JsValues.Truthy | netlify/functions/claude.js:38 | a value is falsy exactly when it is `undefined`, `null`, `false`, zero or the empty string; every array and object is truthy |
| JsValues.First | netlify/functions/claude.js:222 | `content[0]` is `undefined` exactly for an empty array, and otherwise the array's first element |
| Gateway.PromptOf | netlify/functions/claude.js:36 | destructuring `prompt` fails exactly when the body does not parse or parses to `null`; otherwise it gives the `prompt` property or `undefined` |
| Gateway.KeyConfigured | netlify/functions/claude.js:47 | the credential counts as configured exactly when the environment variable is truthy: set and not empty |
| Gateway.ErrorResponse | netlify/functions/claude.js:245-268 | upstream 401, 429 and 404 keep their status (iff), with "Invalid API key", "Rate limit exceeded" and "Model not found" respectively; anything else, an absent status included, is 500 with "Server error: " + message |
| Gateway.ExtractText | netlify/functions/claude.js:220-228 | an array `content` gives `content[0].text` (throwing when that element is missing or null); otherwise a truthy `completion`; otherwise the fixed apology text; null `data` throws |
| Gateway.Gate | netlify/functions/claude.js:14-201 | the handler forwards exactly when the method is POST, the prompt is truthy, the credential is set and the prompt converts to text (no object with its own `toString` in it); the forwarded request carries the model id, token budget, credential, API version and prompt |
| Gateway.Finish | netlify/functions/claude.js:219-269 | after the upstream call the status is 200 exactly when the upstream replied and extraction did not throw, with body `{response: text}` |
| Gateway.Handle | netlify/functions/claude.js:3-271 | every response carries exactly the CORS headers; the status is one of 200, 400, 401, 404, 405, 429, 500; each status is characterised by an if-and-only-if over method, prompt, credential and upstream outcome |
| GatewayProperties.PreflightIgnoresEverything | netlify/functions/claude.js:14-21 | OPTIONS gives 200, an empty body and the CORS headers whatever the body, credential or upstream |
| GatewayProperties.OtherMethodsRefused | netlify/functions/claude.js:23-30 | any other method than OPTIONS and POST gives 405 `{"error":"Method not allowed"}` |
| GatewayProperties.MissingPromptBeforeMissingKey | netlify/functions/claude.js:38-54 | a falsy prompt gives 400 even with no credential configured |
| GatewayProperties.EmptyObjectIsMissingPrompt | netlify/functions/claude.js:36-45 | a POST of `{}` gives 400 |
| GatewayProperties.MissingKeyStopsBeforeUpstream | netlify/functions/claude.js:47-54 | with a prompt but no credential the answer is 500 "API key not configured", decided before the upstream call and independent of its outcome |
| GatewayProperties.UpstreamOnlyMattersWhenForwarded | netlify/functions/claude.js:14-54 | whenever the handler answers before forwarding, the upstream outcome cannot change the response |
| GatewayProperties.UnparseableBodyIsServerError | netlify/functions/claude.js:36 | a body `JSON.parse` rejects gives 500 "Server error: " + the parser's message |
| GatewayProperties.UpstreamStatusMapping | netlify/functions/claude.js:245-268 | 401 gives "Invalid API key", 429 "Rate limit exceeded", 404 "Model not found"; any other or absent status gives 500 "Server error: " + message |
| GatewayProperties.ServerErrorBodies | netlify/functions/claude.js:47-268 | a 500 answer is either "API key not configured" or starts with "Server error: " |
| GatewayProperties.ContentTextReturned | netlify/functions/claude.js:221-222 | a reply whose `content` is an array with a first block holding `text` gives 200 with that text |
| GatewayProperties.CompletionReturned | netlify/functions/claude.js:223-224 | a reply with a truthy `completion` and no array `content`, whatever its other fields, gives 200 with the completion |
| GatewayProperties.UnrecognisedShapeFallsBack | netlify/functions/claude.js:225-228 | any other non-null reply gives 200 with the fixed apology text |
| GatewayProperties.EmptyContentIsServerError | netlify/functions/claude.js:221-222 | a reply whose `content` is an empty array throws on reading `text` and gives 500, not the fallback, whatever its other fields |
| GatewayProperties.ForwardCarriesKeyAndPrompt | netlify/functions/claude.js:201-215 | when the prompt is truthy and converts to text, the upstream request carries the configured credential and the client's prompt |
| GatewayProperties.UnconvertiblePromptIsServerError | netlify/functions/claude.js:176-268 | a truthy prompt whose conversion to text throws gets 500 "Server error: Cannot convert object to primitive value" before any upstream call, whatever the upstream would do |
| GatewayProperties.NestedToStringIsServerError | netlify/functions/claude.js:176-268 | an array prompt with an object holding its own `toString` anywhere in it gets that 500 answer |
| Chat.Initial | src/App.js:5-31 | the component mounts with three hidden bot greetings with ids 1, 2, 3, an empty input, and nothing queued, typing or loading |
| Chat.Reveal | src/App.js:59-73 | revealing id k keeps length, order and every field except visibility, which becomes true exactly on messages with id k and stays as it was elsewhere |
| Chat.RevealIdempotent | src/App.js:59-61 | revealing an id twice equals revealing it once |
| Chat.RevealCommutes | src/App.js:58-74 | two reveals commute, so the greeting timers may fire in any order |
| Chat.ShowGreeting | src/App.js:58-62 | a greeting timer changes only `messages`, by a reveal |
| Chat.GreetingsAllShown | src/App.js:56-78 | after the three greeting timers have fired, in any order, every greeting is visible |
| Chat.Visible | src/App.js:119 | the filtered list holds only visible messages of the input, and every visible message of the input |
| Chat.VisibleAppend | src/App.js:119 | the filter keeps order: the visible part of a concatenation is the concatenation of the visible parts |
| Chat.Role | src/App.js:121 | the role is "user" exactly when the sender is the user, and "assistant" otherwise |
| Chat.Turns | src/App.js:120-123 | one turn per message, in order, with the message's role and text |
| Chat.TurnsAppend | src/App.js:120-123 | mapping messages to turns distributes over concatenation |
| Chat.History | src/App.js:119-123 | the history has length visible count + 1: the visible messages in order, then the user message |
| Chat.Start | src/App.js:81-85 | the effect arms a timer holding the queue head and sets `isTyping` only when the queue is non-empty and `isTyping` is false; otherwise it changes nothing |
| Chat.CanStart | src/App.js:82 | the effect may start only with a non-empty queue and nothing typing, and then (with `isTyping` in step with the timer) no timer is armed |
| Chat.Rest | src/App.js:96 | `slice(1)` leaves an empty queue empty, and otherwise the head put back in front of the result gives the queue again |
| Chat.Fire | src/App.js:86-98 | the timer appends one visible bot message with the captured text at the end, drops the queue head and clears `isTyping` |
| Chat.StartThenFire | src/App.js:81-100 | one start and fire moves the queue head to the end of the conversation as a visible bot message and changes nothing else |
| Chat.BotMessages | src/App.js:87-95 | the appended bot messages carry the queued texts in order, visible, with sender bot |
| Chat.DrainAppendsQueue | src/App.js:81-100 | draining n queued replies appends exactly n visible bot messages in queue order after the untouched earlier messages, and leaves the queue empty with nothing in flight |
| Chat.Drain | src/App.js:81-100 | repeated start and fire keeps the earlier messages as a prefix, moves queued replies into the conversation one for one (messages added plus replies left equals replies queued), leaves input and loading alone and keeps `isTyping` in step with the timer |
| Chat.Send | src/App.js:102-123 | blank input or `isLoading` changes nothing (iff); otherwise the untrimmed input is appended as a visible user message, the input cleared, `isLoading` set, and the history is the pre-send visible turns plus the user turn |
| Chat.SendIgnored | src/App.js:103 | the early-return guard holds exactly when the input is all whitespace or a send is outstanding |
| Chat.Complete | src/App.js:193-209 | on success the queue is replaced by the parsed `messages`, or `[]` when absent; on any failure it is the single apology with delay 1000; `isLoading` ends false; nothing else changes |
| Chat.CompleteReplacesQueue | src/App.js:198 | the queue after a completion does not depend on the queue before it |
| Chat.Step | src/App.js:81-209 | a typing timer fires only while one is armed, and a completion settles only while a send is outstanding |
| ChatProperties.StepKeepsInv | src/App.js:81-100 | every transition keeps `isTyping` set exactly while a typing timer is armed |
| ChatProperties.SingleInFlight | src/App.js:82 | while a timer is armed the typing effect arms no second one |
| ChatProperties.InitialIsQuiet | src/App.js:5-31 | the initial state has no visible message and nothing to send |
| ChatProperties.BlankOrBusySendIsIgnored | src/App.js:103 | pressing send with blank input or while loading leaves the state unchanged |
| ChatProperties.RevealAbsent | src/App.js:59-61 | revealing an id no message carries changes nothing |
| ChatProperties.RevealAppend | src/App.js:59-61 | the reveal map distributes over concatenation |
| ChatProperties.RevealNextExtendsHistory | src/App.js:59-73 | revealing a hidden message whose id no other message carries and whose later neighbours are all hidden appends exactly that message to the visible history |
| ChatProperties.CompletionDuringTypingDropsNewHead | src/App.js:86-98 | a failed request that settles while a typing timer is armed: the timer shows its captured text, drops the queued apology, and leaves nothing queued or armed, so the apology is never shown |
| ChatProperties.FailureQueuesOneApology | src/App.js:200-208 | any failed completion queues exactly one apology with delay 1000 and clears `isLoading` |
| ChatProperties.SendThenComplete | src/App.js:102-209 | from an idle state, send then settle leaves the user message appended, the input empty, nothing loading or in flight |
| ChatProperties.WholeTurn | src/App.js:81-209 | a full turn adds the user's message, then one visible bot message per parsed reply in order, and ends with nothing loading, queued or typing |

## Left out

- Both prompt texts (claude.js lines 59-199, App.js lines 125-191) are fixed copy. The proxy's upstream request carries the client's `prompt` value in place of the text around it.
- The `axios.post` call and `window.claude.complete` are foreign I/O. They are the abstract inputs `Gateway.Upstream` and `Result<string>`.
- The internals of `JSON.parse` and `JSON.stringify` are not modelled. Response bodies are the datatype `Gateway.Body`, and `ReplyBody(Undefined)` stands for the serialised `{}`.
- The wording of engine TypeErrors (`JsValues.ReadError`, `Gateway.DestructureError`, `Gateway.ToPrimitiveError`) is the V8 engine's, not the repository's. Only the "Server error: " prefix around them is the repository's.
- Logging, rendering, scrolling, CSS and the key-press handler are not modelled. Neither are the `disabled` attributes that block input while loading or typing.
- Real time is not modelled: the `setTimeout` delays (800, 1800, 2500 ms and each reply's `delay`) are data only.
- `Date.now()`, `Math.random()` and `new Date()` are caller-supplied ids and timestamps. Id uniqueness is not claimed.
- Chat.Complete: models a truthy `messages` value only as a list of `{text, delay}` replies. A truthy non-array `messages`, or items without a string `text`, fall outside the model.
- JsValues.Read: covers only property names that no built-in prototype defines. Those are the only names the handler reads.
- A `cleanJsonResponse` call on a non-string completion, which would throw, is not modelled: the completion is always text.

=== FILE: chat.dfy ===
/** The client's conversation state (`messages`, `inputText`, `isLoading`,
    `typingQueue`, `isTyping`) and the transitions that change it: the greeting
    reveals, the typing-queue effect and its timer, and `sendMessage`. Timers are
    discrete events; message ids and timestamps are supplied by the caller. */
module Chat {
  import opened Wrappers
  import opened Text
  import opened Fence

  datatype Sender = User | Bot

  /** A chat bubble. `id` and `timestamp` come from the clock and the random
      source, which are outside the model. */
  datatype Message = Message(id: int, text: string, sender: Sender, timestamp: int, isVisible: bool)

  /** One queued bot reply: its text and the delay in milliseconds before it appears. */
  datatype Pending = Pending(text: string, delay: int)

  /** One `{role, content}` entry of the conversation history sent with a prompt. */
  datatype Turn = Turn(role: string, content: string)

  /** The component's state. `timer` is not React state: it is the pending
      `setTimeout` callback armed by the typing effect, holding the queue head it
      captured when it was armed. */
  datatype State = State(
    messages: seq<Message>,
    inputText: string,
    isLoading: bool,
    typingQueue: seq<Pending>,
    isTyping: bool,
    timer: Option<Pending>)

  const Greetings: seq<string> := [
    "Hello there. We're Pattrrn Studios",
    "We help fintech and wealth tech companies build better customer experiences",
    "What brings you here today"
  ]

  /** The reply queued when a completion or its parsing fails. */
  const Apology: Pending := Pending("I apologize, but I encountered an error. Please try again.", 1000)

  /** The state on mounting: three hidden bot greetings with ids 1, 2, 3, an
      empty input and nothing queued or in flight. */
  function Initial(now: int): (s: State)
    ensures |s.messages| == |Greetings|
    ensures forall i | 0 <= i < |s.messages| ::
              s.messages[i] == Message(i + 1, Greetings[i], Bot, now, false)
    ensures s.inputText == [] && !s.isLoading && s.typingQueue == [] && !s.isTyping && s.timer.None?
  {
    State(seq(|Greetings|, i requires 0 <= i < |Greetings| => Message(i + 1, Greetings[i], Bot, now, false)),
          [], false, [], false, None)
  }

  // ---------------------------------------------------------------------------
  // Revealing messages by id

  /** `messages.map(msg => msg.id === id ? {...msg, isVisible: true} : msg)` */
  function Reveal(messages: seq<Message>, id: int): (r: seq<Message>)
    ensures |r| == |messages|
    ensures forall i | 0 <= i < |r| ::
              && r[i].id == messages[i].id
              && r[i].text == messages[i].text
              && r[i].sender == messages[i].sender
              && r[i].timestamp == messages[i].timestamp
              && r[i].isVisible == (messages[i].isVisible || messages[i].id == id)
  {
    if messages == [] then []
    else
      var m := messages[0];
      [if m.id == id then m.(isVisible := true) else m] + Reveal(messages[1..], id)
  }

  /** Revealing an id twice is revealing it once. */
  lemma RevealIdempotent(messages: seq<Message>, id: int)
    ensures Reveal(Reveal(messages, id), id) == Reveal(messages, id)
  {
  }

  /** The order of two reveals does not matter, so the greeting timers may fire in any order. */
  lemma RevealCommutes(messages: seq<Message>, a: int, b: int)
    ensures Reveal(Reveal(messages, a), b) == Reveal(Reveal(messages, b), a)
  {
  }

  /** A greeting timer firing: reveal one id; nothing else in the state changes. */
  function ShowGreeting(s: State, id: int): (r: State)
    ensures r.messages == Reveal(s.messages, id)
    ensures r.(messages := s.messages) == s
  {
    s.(messages := Reveal(s.messages, id))
  }

  /** Once the three greeting timers have fired, in whatever order, every greeting is visible. */
  lemma GreetingsAllShown(now: int, a: int, b: int, c: int)
    requires {a, b, c} == {1, 2, 3}
    ensures var ms := ShowGreeting(ShowGreeting(ShowGreeting(Initial(now), a), b), c).messages;
            |ms| == |Greetings| && forall i | 0 <= i < |ms| :: ms[i].isVisible && ms[i].text == Greetings[i]
  {
    var ms := ShowGreeting(ShowGreeting(ShowGreeting(Initial(now), a), b), c).messages;
    forall i | 0 <= i < |ms|
      ensures ms[i].isVisible
    {
      assert Initial(now).messages[i].id == i + 1;
      assert i + 1 in {a, b, c};
    }
  }

  // ---------------------------------------------------------------------------
  // The visible history

  /** `messages.filter(msg => msg.isVisible)` */
  function Visible(messages: seq<Message>): (r: seq<Message>)
    ensures |r| <= |messages|
    ensures forall m | m in r :: m in messages && m.isVisible
    ensures forall i | 0 <= i < |messages| && messages[i].isVisible :: messages[i] in r
  {
    if messages == [] then []
    else (if messages[0].isVisible then [messages[0]] else []) + Visible(messages[1..])
  }

  /** Filtering keeps the order: the visible part of a concatenation is the
      concatenation of the visible parts. */
  lemma {:induction false} VisibleAppend(a: seq<Message>, b: seq<Message>)
    ensures Visible(a + b) == Visible(a) + Visible(b)
    decreases |a|
  {
    if a != [] {
      assert (a + b)[1..] == a[1..] + b;
      VisibleAppend(a[1..], b);
    } else {
      assert a + b == b;
    }
  }

  /** `msg.sender === 'user' ? 'user' : 'assistant'` */
  function Role(m: Message): (role: string)
    ensures role == "user" <==> m.sender == User
    ensures role in {"user", "assistant"}
  {
    if m.sender == User then "user" else "assistant"
  }

  /** `messages.map(msg => ({role, content: msg.text}))` */
  function Turns(messages: seq<Message>): (r: seq<Turn>)
    ensures |r| == |messages|
    ensures forall i | 0 <= i < |r| :: r[i].role == Role(messages[i]) && r[i].content == messages[i].text
  {
    if messages == [] then [] else [Turn(Role(messages[0]), messages[0].text)] + Turns(messages[1..])
  }

  /** Mapping to turns distributes over concatenation. */
  lemma {:induction false} TurnsAppend(a: seq<Message>, b: seq<Message>)
    ensures Turns(a + b) == Turns(a) + Turns(b)
    decreases |a|
  {
    if a == [] {
      assert a + b == b;
    } else {
      assert (a + b)[1..] == a[1..] + b;
      TurnsAppend(a[1..], b);
    }
  }

  /** The history sent with a prompt: the visible messages of the snapshot taken
      when sending, in order, then the new user message. */
  function History(snapshot: seq<Message>, userMessage: Message): (h: seq<Turn>)
    ensures |h| == |Visible(snapshot)| + 1
    ensures forall i | 0 <= i < |h| - 1 ::
              h[i] == Turn(Role(Visible(snapshot)[i]), Visible(snapshot)[i].text)
    ensures h[|h| - 1] == Turn(Role(userMessage), userMessage.text)
  {
    Turns(Visible(snapshot) + [userMessage])
  }

  // ---------------------------------------------------------------------------
  // The typing queue

  /** `isTyping` is set exactly while a timer is armed. Every transition keeps this. */
  predicate Inv(s: State) {
    s.isTyping <==> s.timer.Some?
  }

  /** The typing effect arms a timer only when something is queued and no timer is armed. */
  function CanStart(s: State): (r: bool)
    ensures r && Inv(s) ==> s.timer.None? && s.typingQueue != []
    ensures |s.typingQueue| == 0 || s.isTyping ==> !r
  {
    |s.typingQueue| > 0 && !s.isTyping
  }

  /** The typing effect, run after every change of `typingQueue` or `isTyping`:
      when it may start, it sets `isTyping` and arms a timer holding the queue head;
      otherwise it does nothing. */
  function Start(s: State): (r: State)
    ensures CanStart(s) ==> r.isTyping && r.timer == Some(s.typingQueue[0])
    ensures CanStart(s) ==> r.(isTyping := s.isTyping, timer := s.timer) == s
    ensures !CanStart(s) ==> r == s
  {
    if CanStart(s) then s.(isTyping := true, timer := Some(s.typingQueue[0])) else s
  }

  /** `slice(1)`: everything after the head; an empty queue stays empty. */
  function Rest(q: seq<Pending>): (r: seq<Pending>)
    ensures q == [] ==> r == []
    ensures q != [] ==> [q[0]] + r == q
  {
    if |q| > 0 then q[1..] else []
  }

  /** The armed timer firing: it appends one visible bot message with the text it
      captured, drops the head of the queue as it is now, and clears `isTyping`. */
  function Fire(s: State, id: int, now: int): (r: State)
    requires s.timer.Some?
    ensures r.messages == s.messages + [Message(id, s.timer.value.text, Bot, now, true)]
    ensures r.typingQueue == Rest(s.typingQueue)
    ensures !r.isTyping && r.timer.None?
    ensures r.inputText == s.inputText && r.isLoading == s.isLoading
  {
    State(s.messages + [Message(id, s.timer.value.text, Bot, now, true)],
          s.inputText, s.isLoading, Rest(s.typingQueue), false, None)
  }

  /** One start-and-fire round moves the queue head into the conversation as a
      visible bot message, and leaves everything else as it was. */
  lemma StartThenFire(s: State, id: int, now: int)
    requires Inv(s) && CanStart(s)
    ensures Start(s).timer.Some?
    ensures Fire(Start(s), id, now)
         == s.(messages := s.messages + [Message(id, s.typingQueue[0].text, Bot, now, true)],
               typingQueue := s.typingQueue[1..])
  {
  }

  /** The bot messages a drain appends for queue `q`, with ids and times supplied from outside. */
  function BotMessages(q: seq<Pending>, ids: seq<int>, times: seq<int>): (r: seq<Message>)
    requires |ids| == |q| && |times| == |q|
    ensures |r| == |q|
    ensures forall i | 0 <= i < |q| :: r[i] == Message(ids[i], q[i].text, Bot, times[i], true)
  {
    if q == [] then []
    else [Message(ids[0], q[0].text, Bot, times[0], true)] + BotMessages(q[1..], ids[1..], times[1..])
  }

  lemma AppendOne(a: seq<Message>, m: Message, t: seq<Message>)
    ensures (a + [m]) + t == a + ([m] + t)
  {
  }

  /** Alternating the effect and its timer until the queue is empty or the ids run
      out. Each round moves one queued reply into the conversation. */
  function Drain(s: State, ids: seq<int>, times: seq<int>): (r: State)
    requires |ids| == |times|
    ensures |s.messages| <= |r.messages| && r.messages[..|s.messages|] == s.messages
    ensures |r.messages| - |s.messages| + |r.typingQueue| == |s.typingQueue|
    ensures r.inputText == s.inputText && r.isLoading == s.isLoading
    ensures Inv(s) ==> Inv(r)
    decreases |ids|
  {
    if ids == [] || !CanStart(s) then s
    else Drain(Fire(Start(s), ids[0], times[0]), ids[1..], times[1..])
  }

  /** Draining a queue of n items appends exactly n visible bot messages carrying
      the queued texts in queue order after the untouched earlier messages, and
      leaves the queue empty and nothing in flight. */
  lemma {:induction false} DrainAppendsQueue(s: State, ids: seq<int>, times: seq<int>)
    requires |ids| == |s.typingQueue| && |times| == |s.typingQueue|
    requires !s.isTyping && s.timer.None?
    ensures var r := Drain(s, ids, times);
            && r.messages == s.messages + BotMessages(s.typingQueue, ids, times)
            && r.typingQueue == [] && !r.isTyping && r.timer.None?
            && r.inputText == s.inputText && r.isLoading == s.isLoading
    decreases |ids|
  {
    var q := s.typingQueue;
    if ids != [] {
      var m0 := Message(ids[0], q[0].text, Bot, times[0], true);
      var s' := Fire(Start(s), ids[0], times[0]);
      assert && s'.messages == s.messages + [m0] && s'.typingQueue == q[1..]
             && !s'.isTyping && s'.timer.None? && s'.inputText == s.inputText && s'.isLoading == s.isLoading by {
        StartThenFire(s, ids[0], times[0]);
      }
      assert Drain(s, ids, times) == Drain(s', ids[1..], times[1..]);
      DrainAppendsQueue(s', ids[1..], times[1..]);
      var tail := BotMessages(q[1..], ids[1..], times[1..]);
      assert BotMessages(q, ids, times) == [m0] + tail;
      AppendOne(s.messages, m0, tail);
    }
  }

  // ---------------------------------------------------------------------------
  // Sending a message

  /** `!inputText.trim() || isLoading`: the guard that makes `sendMessage` return at once. */
  function SendIgnored(s: State): (r: bool)
    ensures r <==> AllWhitespace(s.inputText) || s.isLoading
  {
    Trim(s.inputText) == [] || s.isLoading
  }

  /** The synchronous part of `sendMessage`, up to the awaited completion: append
      the user message, clear the input, set `isLoading`, and build the history
      from the messages as they were before sending. `None` means nothing was sent. */
  function Send(s: State, id: int, now: int): (r: (State, Option<seq<Turn>>))
    ensures r.1.None? <==> AllWhitespace(s.inputText) || s.isLoading
    ensures r.1.None? ==> r.0 == s
    ensures r.1.Some? ==>
              && r.0.messages == s.messages + [Message(id, s.inputText, User, now, true)]
              && r.0.inputText == [] && r.0.isLoading
              && r.0.typingQueue == s.typingQueue && r.0.isTyping == s.isTyping && r.0.timer == s.timer
    ensures r.1.Some? ==> r.1.value == Turns(Visible(s.messages)) + [Turn("user", s.inputText)]
  {
    if SendIgnored(s) then (s, None)
    else
      var userMessage := Message(id, s.inputText, User, now, true);
      var history := History(s.messages, userMessage);
      assert history == Turns(Visible(s.messages)) + [Turn("user", s.inputText)] by {
        TurnsAppend(Visible(s.messages), [userMessage]);
        assert Turns([userMessage]) == [Turn("user", s.inputText)];
      }
      (s.(messages := s.messages + [userMessage], inputText := [], isLoading := true), Some(history))
  }

  /** What `JSON.parse` made of the cleaned reply: it threw, it gave `null`
      (reading `.messages` then throws), or it gave a value whose `messages`
      property is a list of replies or is absent or falsy. */
  datatype ParseOutcome = NotJson | JsonNull | JsonValue(messages: Option<seq<Pending>>)

  /** The end of `sendMessage` once the completion settles (`response` is its text
      or the error it threw; `parse` is `JSON.parse`): the queue is replaced by the
      parsed replies, by `[]` when there are none, or by the single apology on any
      failure; `isLoading` is cleared either way. */
  function Complete(s: State, response: Result<string>, parse: string -> ParseOutcome): (r: State)
    ensures !r.isLoading
    ensures r.(isLoading := s.isLoading, typingQueue := s.typingQueue) == s
    ensures response.Err? ==> r.typingQueue == [Apology]
    ensures response.Ok? ==>
              var parsed := parse(CleanJsonResponse(response.value));
              && (parsed.NotJson? || parsed.JsonNull? ==> r.typingQueue == [Apology])
              && (parsed == JsonValue(None) ==> r.typingQueue == [])
              && (parsed.JsonValue? && parsed.messages.Some? ==> r.typingQueue == parsed.messages.value)
  {
    var queue :=
      match response
      case Err(_) => [Apology]
      case Ok(text) =>
        match parse(CleanJsonResponse(text))
        case NotJson => [Apology]
        case JsonNull => [Apology]
        case JsonValue(None) => []
        case JsonValue(Some(replies)) => replies;
    s.(typingQueue := queue, isLoading := false)
  }

  /** The queue after a completion does not depend on the queue before it: it is
      replaced, never appended to. */
  lemma CompleteReplacesQueue(s1: State, s2: State, response: Result<string>, parse: string -> ParseOutcome)
    ensures Complete(s1, response, parse).typingQueue == Complete(s2, response, parse).typingQueue
  {
  }

  // ---------------------------------------------------------------------------
  // The whole component as a transition system

  /** Everything that can happen to the component: the user edits the input, a
      greeting timer fires, the typing effect runs, the armed typing timer fires,
      the user sends, or the outstanding completion settles. */
  datatype Event =
    | Typed(text: string)
    | GreetingTimer(id: int)
    | TypingEffect
    | TypingTimer(id: int, now: int)
    | SendPressed(id: int, now: int)
    | Completed(response: Result<string>, parse: string -> ParseOutcome)

  /** The state after `e`, or `None` when `e` cannot happen in `s`: a typing timer
      fires only while one is armed, and a completion settles only while a send is
      outstanding. */
  function Step(s: State, e: Event): (r: Option<State>)
    ensures r.None? <==> (e.TypingTimer? && s.timer.None?) || (e.Completed? && !s.isLoading)
  {
    match e
    case Typed(text) => Some(s.(inputText := text))
    case GreetingTimer(id) => Some(ShowGreeting(s, id))
    case TypingEffect => Some(Start(s))
    case TypingTimer(id, now) => if s.timer.Some? then Some(Fire(s, id, now)) else None
    case SendPressed(id, now) => Some(Send(s, id, now).0)
    case Completed(response, parse) => if s.isLoading then Some(Complete(s, response, parse)) else None
  }
}

=== FILE: chat_properties.dfy ===
/** Properties of the client's state machine that relate several transitions. */
module ChatProperties {
  import opened Wrappers
  import opened Text
  import opened Fence
  import opened Chat

  /** Every transition keeps `isTyping` in step with the armed timer. */
  lemma StepKeepsInv(s: State, e: Event)
    requires Inv(s) && Step(s, e).Some?
    ensures Inv(Step(s, e).value)
  {
  }

  /** At most one typing timer is ever armed: while one is armed the typing
      effect does nothing. */
  lemma SingleInFlight(s: State)
    requires Inv(s) && s.timer.Some?
    ensures Start(s) == s
  {
  }

  /** The initial state satisfies the invariant, has nothing visible and nothing to send. */
  lemma InitialIsQuiet(now: int)
    ensures Inv(Initial(now))
    ensures Visible(Initial(now).messages) == []
    ensures SendIgnored(Initial(now))
  {
    var ms := Initial(now).messages;
    if Visible(ms) != [] {
      assert Visible(ms)[0] in Visible(ms);
    }
  }

  /** `sendMessage` does nothing when the input is blank or a send is outstanding. */
  lemma BlankOrBusySendIsIgnored(s: State, id: int, now: int)
    requires AllWhitespace(s.inputText) || s.isLoading
    ensures Step(s, SendPressed(id, now)) == Some(s)
  {
  }

  /** Revealing an id no message carries changes nothing. */
  lemma RevealAbsent(ms: seq<Message>, id: int)
    requires forall i | 0 <= i < |ms| :: ms[i].id != id
    ensures Reveal(ms, id) == ms
  {
    var r := Reveal(ms, id);
    forall i | 0 <= i < |ms|
      ensures r[i] == ms[i]
    {
    }
  }

  /** Revealing works element by element, so it distributes over concatenation. */
  lemma {:induction false} RevealAppend(a: seq<Message>, b: seq<Message>, id: int)
    ensures Reveal(a + b, id) == Reveal(a, id) + Reveal(b, id)
    decreases |a|
  {
    if a == [] {
      assert a + b == b;
    } else {
      assert (a + b)[1..] == a[1..] + b;
      RevealAppend(a[1..], b, id);
    }
  }

  /** When every later message is hidden, revealing a hidden message whose id no
      other message carries extends the visible history by exactly that message at
      its end. Revealing the greetings in list order therefore grows the history in
      that order. */
  lemma RevealNextExtendsHistory(prefix: seq<Message>, m: Message, rest: seq<Message>)
    requires forall i | 0 <= i < |prefix| :: prefix[i].id != m.id
    requires forall i | 0 <= i < |rest| :: rest[i].id != m.id && !rest[i].isVisible
    requires !m.isVisible
    ensures Visible(Reveal(prefix + [m] + rest, m.id)) == Visible(prefix + [m] + rest) + [m.(isVisible := true)]
  {
    var m' := m.(isVisible := true);
    var vp := Visible(prefix);
    assert Reveal(prefix + [m] + rest, m.id) == prefix + [m'] + rest by {
      RevealAppend(prefix + [m], rest, m.id);
      RevealAppend(prefix, [m], m.id);
      RevealAbsent(prefix, m.id);
      RevealAbsent(rest, m.id);
      assert Reveal([m], m.id) == [m'];
    }
    assert Visible(rest) == [] by { NoneVisible(rest); }
    assert Visible(prefix + [m'] + rest) == vp + [m'] by {
      VisibleAppend(prefix + [m'], rest);
      VisibleAppend(prefix, [m']);
      assert Visible([m']) == [m'] by { assert Visible([m']) == [m'] + Visible([m'][1..]); }
    }
    assert Visible(prefix + [m] + rest) == vp by {
      VisibleAppend(prefix + [m], rest);
      VisibleAppend(prefix, [m]);
      assert Visible([m]) == [] by { assert Visible([m]) == [] + Visible([m][1..]); }
    }
  }

  /** A list with no visible message has an empty visible part. */
  lemma NoneVisible(ms: seq<Message>)
    requires forall i | 0 <= i < |ms| :: !ms[i].isVisible
    ensures Visible(ms) == []
  {
    if Visible(ms) != [] {
      assert Visible(ms)[0] in Visible(ms);
    }
  }

  /** A completion that lands while a typing timer is armed replaces the queue the
      timer was taken from. When the timer then fires it shows the reply it
      captured and drops the head of the new queue. For a failed request that head
      is the only item, the apology, so the apology is never shown: nothing is
      left queued and no timer is armed. */
  lemma CompletionDuringTypingDropsNewHead(s: State, message: string, parse: string -> ParseOutcome, id: int, now: int)
    requires s.isLoading && s.timer.Some?
    ensures var c := Complete(s, Err(message), parse);
            var r := Fire(c, id, now);
            && r.messages == s.messages + [Message(id, s.timer.value.text, Bot, now, true)]
            && r.typingQueue == [] && r.timer.None? && !r.isTyping && !r.isLoading
  {
  }

  /** A failed completion always leaves exactly one apology queued, with delay 1000. */
  lemma FailureQueuesOneApology(s: State, message: string, parse: string -> ParseOutcome)
    ensures Complete(s, Err(message), parse).typingQueue == [Pending("I apologize, but I encountered an error. Please try again.", 1000)]
    ensures !Complete(s, Err(message), parse).isLoading
  {
  }

  /** A whole turn from an idle conversation: the user sends, the completion comes
      back as text whose parsed `messages` hold the replies `q`, and the queue is
      drained. The conversation grows by the user's message followed by one visible
      bot message per reply, in order; nothing is left loading, queued or in flight. */
  lemma WholeTurn(s: State, userId: int, t0: int, raw: string, parse: string -> ParseOutcome,
                  q: seq<Pending>, ids: seq<int>, times: seq<int>)
    requires Inv(s) && !s.isTyping && !SendIgnored(s)
    requires parse(CleanJsonResponse(raw)) == JsonValue(Some(q))
    requires |ids| == |q| && |times| == |q|
    ensures var s2 := Complete(Send(s, userId, t0).0, Ok(raw), parse);
            var s3 := Drain(s2, ids, times);
            && s3.messages == s.messages + [Message(userId, s.inputText, User, t0, true)] + BotMessages(q, ids, times)
            && |s3.messages| == |s.messages| + 1 + |q|
            && !s3.isLoading && !s3.isTyping && s3.typingQueue == []
  {
    var s2 := Complete(Send(s, userId, t0).0, Ok(raw), parse);
    SendThenComplete(s, userId, t0, Ok(raw), parse);
    DrainAppendsQueue(s2, ids, times);
  }

  /** Sending then settling from an idle conversation leaves the user message
      appended, the input cleared, nothing loading and nothing in flight. */
  lemma SendThenComplete(s: State, userId: int, t0: int, response: Result<string>, parse: string -> ParseOutcome)
    requires Inv(s) && !s.isTyping && !SendIgnored(s)
    ensures var s2 := Complete(Send(s, userId, t0).0, response, parse);
            && s2.messages == s.messages + [Message(userId, s.inputText, User, t0, true)]
            && s2.inputText == [] && !s2.isLoading && !s2.isTyping && s2.timer.None?
            && s2.typingQueue == Complete(s, response, parse).typingQueue
  {
  }
}

=== FILE: fence.dfy ===
/** The client's `cleanJsonResponse`: the model's reply text is trimmed and a
    Markdown code fence around it (with or without a `json` language tag) is
    removed before the text is handed to `JSON.parse`. */
module Fence {
  import opened Text

  const JsonFence: string := "```json"
  const PlainFence: string := "```"

  /** `s.replace` of the regex "`p`, then `\s*`, anchored at the start" by the
      empty string: when `s` starts with `p`, the prefix and the whitespace run
      after it are dropped. */
  function StripOpening(s: string, p: string): (r: string)
    ensures StartsWith(s, p) ==>
              && |p| <= |s| - |r|
              && InfixAt(r, s, |s| - |r|)
              && AllWhitespace(s[|p|..|s| - |r|])
              && (r == [] || !IsWhitespace(r[0]))
    ensures !StartsWith(s, p) ==> r == s
  {
    if StartsWith(s, p) then
      var r := TrimStart(s[|p|..]);
      DropThenTake(s, |p|, |s| - |p| - |r|);
      r
    else s
  }

  /** `\s*```$` matches `s` starting at index `p`. */
  predicate ClosingMatchAt(s: string, p: nat) {
    EndsWith(s, PlainFence) && p <= |s| - |PlainFence| && AllWhitespace(s[p..|s| - |PlainFence|])
  }

  /** `s.replace(/\s*```$/, '')`: a regular expression replaces its leftmost
      match, so when `s` ends with a fence the result is `s` cut at the earliest
      index where `\s*```$` matches; otherwise `s` is unchanged. */
  function StripClosing(s: string): (r: string)
    ensures EndsWith(s, PlainFence) ==>
              && InfixAt(r, s, 0)
              && ClosingMatchAt(s, |r|)
              && (forall p: nat | ClosingMatchAt(s, p) :: |r| <= p)
    ensures !EndsWith(s, PlainFence) ==> r == s
  {
    if EndsWith(s, PlainFence) then TrimEnd(s[..|s| - |PlainFence|]) else s
  }

  /** One `if (cleaned.startsWith(p)) { … }` block of `cleanJsonResponse`: strip
      the opening fence `p`, then a closing fence. */
  function FenceStep(s: string, p: string): (r: string)
    ensures IsInfix(r, s) && |r| <= |s|
    ensures !StartsWith(s, p) ==> r == s
  {
    if StartsWith(s, p) then
      var m := StripOpening(s, p);
      var r := StripClosing(m);
      InfixTransitive(r, m, s, 0, |s| - |m|);
      r
    else
      assert InfixAt(s, s, 0);
      s
  }

  /** A text opening with "```json" also opens with "```". */
  lemma JsonFenceIsFence(t: string)
    requires StartsWith(t, JsonFence)
    ensures StartsWith(t, PlainFence)
  {
    assert t[..|PlainFence|] == t[..|JsonFence|][..|PlainFence|];
  }

  /** `cleanJsonResponse(response)` */
  function CleanJsonResponse(response: string): (r: string)
    ensures !StartsWith(Trim(response), PlainFence) ==> r == Trim(response)
    ensures IsInfix(r, Trim(response)) && |r| <= |Trim(response)|
  {
    var t := Trim(response);
    var a := FenceStep(t, JsonFence);
    var r := FenceStep(a, PlainFence);
    if StartsWith(t, JsonFence) then JsonFenceIsFence(t); Compose(t, a, r); r
    else assert a == t; Compose(t, a, r); r
  }

  /** Two infix steps compose into one. */
  lemma Compose(t: string, a: string, r: string)
    requires IsInfix(a, t) && IsInfix(r, a)
    ensures IsInfix(r, t) && |r| <= |t|
  {
    var i: nat :| i <= |t| && InfixAt(a, t, i);
    var j: nat :| j <= |a| && InfixAt(r, a, j);
    InfixTransitive(r, a, t, j, i);
  }

  /** An opening fence, whitespace, then text that does not start with whitespace:
      stripping the opening leaves the text. */
  lemma OpeningThenText(p: string, w: string, y: string)
    requires AllWhitespace(w) && (y == [] || !IsWhitespace(y[0]))
    ensures StripOpening(p + w + y, p) == y
  {
    var s := p + w + y;
    assert s[..|p|] == p;
    assert s[|p|..] == w + y;
    TrimStartPadded(w, y);
  }

  /** Text that does not end with whitespace, whitespace, then a closing fence:
      stripping the closing leaves the text. */
  lemma TextThenClosing(y: string, w: string)
    requires AllWhitespace(w) && (y == [] || !IsWhitespace(y[|y| - 1]))
    ensures StripClosing(y + w + PlainFence) == y
  {
    var s := y + w + PlainFence;
    assert s[|s| - |PlainFence|..] == PlainFence;
    assert s[..|s| - |PlainFence|] == y + w;
    TrimEndPadded(y, w);
  }

  /** The shape of a JSON object's text: it opens with `{` and closes with `}`. */
  predicate LooksLikeObject(s: string) {
    |s| >= 2 && s[0] == '{' && s[|s| - 1] == '}'
  }

  /** Unfenced object text, with any surrounding whitespace, is returned as is. */
  lemma CleanBareObject(w1: string, s: string, w2: string)
    requires AllWhitespace(w1) && AllWhitespace(w2) && LooksLikeObject(s)
    ensures CleanJsonResponse(w1 + s + w2) == s
  {
    TrimPadded(w1, s, w2);
    assert !StartsWith(s, PlainFence) by {
      if |s| >= 3 { assert s[..3][0] == '{'; }
    }
  }

  /** One fence step on fenced text gives back the text inside. */
  lemma FenceStepOnFenced(p: string, w: string, y: string, w': string)
    requires AllWhitespace(w) && AllWhitespace(w')
    requires y != [] && !IsWhitespace(y[0]) && !IsWhitespace(y[|y| - 1])
    ensures FenceStep(p + w + y + w' + PlainFence, p) == y
  {
    var x := p + w + y + w' + PlainFence;
    assert x == p + w + (y + w' + PlainFence);
    assert StartsWith(x, p) by { assert x[..|p|] == p; }
    OpeningThenText(p, w, y + w' + PlainFence);
    TextThenClosing(y, w');
  }

  /** Object text neither starts nor ends with whitespace and does not open with a fence. */
  lemma ObjectText(s: string)
    requires LooksLikeObject(s)
    ensures !IsWhitespace(s[0]) && !IsWhitespace(s[|s| - 1])
    ensures !StartsWith(s, PlainFence) && FenceStep(s, PlainFence) == s
  {
    if |s| >= |PlainFence| { assert s[..|PlainFence|][0] == '{'; }
  }

  /** A fenced text has a backtick at each end, so trimming whitespace around it
      gives it back. */
  lemma TrimFenced(w1: string, x: string, w4: string)
    requires AllWhitespace(w1) && AllWhitespace(w4)
    requires |x| >= 1 && x[0] == '`' && x[|x| - 1] == '`'
    ensures Trim(w1 + x + w4) == x
  {
    TrimPadded(w1, x, w4);
  }

  /** Object text inside a "```json" fence, with any whitespace around the
      fence and between the fence and the text, comes back unfenced. */
  lemma CleanJsonFencedObject(w1: string, w2: string, s: string, w3: string, w4: string)
    requires AllWhitespace(w1) && AllWhitespace(w2) && AllWhitespace(w3) && AllWhitespace(w4)
    requires LooksLikeObject(s)
    ensures CleanJsonResponse(w1 + JsonFence + w2 + s + w3 + PlainFence + w4) == s
  {
    var x := JsonFence + w2 + s + w3 + PlainFence;
    assert w1 + JsonFence + w2 + s + w3 + PlainFence + w4 == w1 + x + w4;
    assert x[0] == '`' && x[|x| - 1] == '`';
    TrimFenced(w1, x, w4);
    ObjectText(s);
    FenceStepOnFenced(JsonFence, w2, s, w3);
  }

  /** A bare fence followed by whitespace or `{` does not carry the `json` tag. */
  lemma NoLanguageTag(w: string, s: string, w': string)
    requires AllWhitespace(w) && LooksLikeObject(s)
    ensures !StartsWith(PlainFence + w + s + w' + PlainFence, JsonFence)
  {
    var x := PlainFence + w + s + w' + PlainFence;
    if |x| >= |JsonFence| {
      assert x[..|JsonFence|][3] == x[3];
      if w == [] { assert x[3] == s[0]; } else { assert x[3] == w[0]; }
    }
  }

  /** Object text inside a bare "```" fence, with any whitespace around the fence
      and between the fence and the text, comes back unfenced. */
  lemma CleanPlainFencedObject(w1: string, w2: string, s: string, w3: string, w4: string)
    requires AllWhitespace(w1) && AllWhitespace(w2) && AllWhitespace(w3) && AllWhitespace(w4)
    requires LooksLikeObject(s)
    ensures CleanJsonResponse(w1 + PlainFence + w2 + s + w3 + PlainFence + w4) == s
  {
    var x := PlainFence + w2 + s + w3 + PlainFence;
    assert w1 + PlainFence + w2 + s + w3 + PlainFence + w4 == w1 + x + w4;
    assert x[0] == '`' && x[|x| - 1] == '`';
    TrimFenced(w1, x, w4);
    ObjectText(s);
    NoLanguageTag(w2, s, w3);
    assert FenceStep(x, JsonFence) == x;
    FenceStepOnFenced(PlainFence, w2, s, w3);
  }
}

=== FILE: gateway.dfy ===
/** The serverless proxy `exports.handler`: CORS preflight, method check, prompt
    and credential checks, the call to the upstream completion service, and the
    mapping of its reply or failure onto one HTTP response. */
module Gateway {
  import opened Wrappers
  import opened JsValues

  /** The CORS headers attached to every response. */
  const CorsHeaders: seq<(string, string)> := [
    ("Access-Control-Allow-Origin", "*"),
    ("Access-Control-Allow-Headers", "Content-Type"),
    ("Access-Control-Allow-Methods", "POST, OPTIONS")
  ]

  const ApiUrl: string := "https://api.anthropic.com/v1/messages"
  const ModelId: string := "claude-3-5-sonnet-20241022"
  const MaxTokens: int := 1000
  const ApiVersion: string := "2023-06-01"
  const UnexpectedFormat: string := "Sorry, I encountered an unexpected response format."
  const ServerErrorPrefix: string := "Server error: "

  /** The statuses the handler can answer with. */
  const Statuses: set<int> := {200, 400, 401, 404, 405, 429, 500}

  /** The response body before `JSON.stringify`: empty (`''`), `{error}`, or
      `{response}`. `ReplyBody(Undefined)` serialises as `{}`. */
  datatype Body = NoBody | ErrorBody(error: string) | ReplyBody(response: Value)

  datatype Response = Response(statusCode: int, headers: seq<(string, string)>, body: Body)

  /** The request body after `JSON.parse`: the parser's error message, or the value. */
  datatype RequestBody = Unparseable(message: string) | Parsed(json: Json)

  datatype Event = Event(httpMethod: string, body: RequestBody)

  /** How the upstream call ended: with the reply's `data`, or with a thrown error
      whose `response.status` may be absent (a network failure has none). */
  datatype Upstream = Replied(data: Json) | Failed(status: Option<int>, message: string)

  /** What the handler sends upstream. The prompt text around the client's
      `prompt` is fixed copy and is not modelled; `prompt` is the value it embeds. */
  datatype UpstreamRequest = UpstreamRequest(
    url: string, model: string, maxTokens: int, apiKey: string, version: string, prompt: Value)

  /** The handler's decision before any upstream traffic: answer now, or call upstream. */
  datatype Decision = Respond(response: Response) | Forward(request: UpstreamRequest)

  function Reply(statusCode: int, body: Body): Response {
    Response(statusCode, CorsHeaders, body)
  }

  /** `process.env.ANTHROPIC_API_KEY` is truthy: present and not empty. */
  function KeyConfigured(env: Option<string>): (r: bool)
    ensures r <==> Truthy(match env case None => Undefined case Some(key) => Defined(Str(key)))
  {
    env.Some? && env.value != []
  }

  /** The TypeError message for `const { prompt } = null` (V8 wording). */
  function DestructureError(key: string): string {
    "Cannot destructure property '" + key + "' of 'JSON.parse(...)' as it is null."
  }

  /** `const { prompt } = JSON.parse(event.body)`: the parser's error, the
      destructuring error on `null`, or the `prompt` property. */
  function PromptOf(body: RequestBody): (r: Result<Value>)
    ensures r.Err? <==> body.Unparseable? || body.json == Null
    ensures body.Parsed? && body.json.Object? && "prompt" in body.json.fields ==>
              r == Ok(Defined(body.json.fields["prompt"]))
    ensures body.Parsed? && body.json != Null && !(body.json.Object? && "prompt" in body.json.fields) ==>
              r == Ok(Undefined)
  {
    match body
    case Unparseable(message) => Err(message)
    case Parsed(Null) => Err(DestructureError("prompt"))
    case Parsed(json) => Read(Defined(json), "prompt")
  }

  /** The `catch` block: 401, 429 and 404 from upstream keep their status with a
      fixed message; anything else, including an error with no upstream status,
      becomes 500 carrying the error's message. */
  function ErrorResponse(status: Option<int>, message: string): (r: Response)
    ensures r.headers == CorsHeaders && r.body.ErrorBody?
    ensures status == Some(401) <==> r.statusCode == 401
    ensures status == Some(429) <==> r.statusCode == 429
    ensures status == Some(404) <==> r.statusCode == 404
    ensures r.statusCode in {401, 404, 429, 500}
    ensures r.statusCode == 500 ==> r.body.error == ServerErrorPrefix + message
    ensures status == Some(401) ==> r.body == ErrorBody("Invalid API key")
    ensures status == Some(429) ==> r.body == ErrorBody("Rate limit exceeded")
    ensures status == Some(404) ==> r.body == ErrorBody("Model not found")
  {
    if status == Some(401) then Reply(401, ErrorBody("Invalid API key"))
    else if status == Some(429) then Reply(429, ErrorBody("Rate limit exceeded"))
    else if status == Some(404) then Reply(404, ErrorBody("Model not found"))
    else Reply(500, ErrorBody(ServerErrorPrefix + message))
  }

  /** The text picked out of an upstream reply: `content[0].text` when `content`
      is an array, else a truthy `completion`, else the fixed apology. Reading
      `text` from a missing or null first element, or any property of a null
      `data`, throws. */
  function ExtractText(data: Json): (r: Result<Value>)
    ensures data == Null ==> r.Err?
    ensures data.Object? && "content" in data.fields && data.fields["content"].Array? ==>
              r == Read(First(data.fields["content"].items), "text")
    ensures data != Null && !(data.Object? && "content" in data.fields && data.fields["content"].Array?) ==>
              r.Ok? && r.value != Undefined
    ensures data.Object? && !("content" in data.fields && data.fields["content"].Array?) &&
            "completion" in data.fields && Truthy(Defined(data.fields["completion"])) ==>
              r == Ok(Defined(data.fields["completion"]))
    ensures data != Null && !(data.Object? && "content" in data.fields && data.fields["content"].Array?) &&
            !(data.Object? && "completion" in data.fields && Truthy(Defined(data.fields["completion"]))) ==>
              r == Ok(Defined(Str(UnexpectedFormat)))
  {
    match Read(Defined(data), "content")
    case Err(e) => Err(e)
    case Ok(content) =>
      if Truthy(content) && content.json.Array? then Read(First(content.json.items), "text")
      else
        match Read(Defined(data), "completion")
        case Err(e) => Err(e)
        case Ok(completion) =>
          if Truthy(completion) then Ok(completion) else Ok(Defined(Str(UnexpectedFormat)))
  }

  /** The message of the TypeError thrown when an object has no usable
      `toString` or `valueOf` (the wording of the V8 engine). */
  const ToPrimitiveError: string := "Cannot convert object to primitive value"

  /** Interpolating `j` into a template literal throws. A parsed object has
      `Object.prototype` behind it, so its own `toString` property, when it has
      one, shadows the inherited method; being data and not a function, it is
      skipped, and the inherited `valueOf` returns the object itself, which is
      not a primitive. An array is converted by joining its elements, so it
      throws exactly when one of them does. Every other value converts. */
  predicate ToStringThrows(j: Json) {
    match j
    case Object(fields) => "toString" in fields
    case Array(items) => exists i | 0 <= i < |items| :: ToStringThrows(items[i])
    case _ => false
  }

  /** Everything the handler does before the upstream call: preflight, the method
      check, the prompt check, the credential check and the conversion of the
      prompt to text for the upstream prompt, in that order. */
  function Gate(event: Event, env: Option<string>): (d: Decision)
    ensures d.Forward? <==>
              && event.httpMethod == "POST"
              && PromptOf(event.body).Ok? && Truthy(PromptOf(event.body).value)
              && KeyConfigured(env)
              && !ToStringThrows(PromptOf(event.body).value.json)
    ensures d.Forward? ==> d.request == UpstreamRequest(
              ApiUrl, ModelId, MaxTokens, env.value, ApiVersion, PromptOf(event.body).value)
    ensures d.Respond? ==> d.response.headers == CorsHeaders
  {
    if event.httpMethod == "OPTIONS" then Respond(Reply(200, NoBody))
    else if event.httpMethod != "POST" then Respond(Reply(405, ErrorBody("Method not allowed")))
    else
      match PromptOf(event.body)
      case Err(message) => Respond(ErrorResponse(None, message))
      case Ok(prompt) =>
        if !Truthy(prompt) then Respond(Reply(400, ErrorBody("Prompt is required")))
        else if !KeyConfigured(env) then Respond(Reply(500, ErrorBody("API key not configured")))
        else if ToStringThrows(prompt.json) then Respond(ErrorResponse(None, ToPrimitiveError))
        else Forward(UpstreamRequest(ApiUrl, ModelId, MaxTokens, env.value, ApiVersion, prompt))
  }

  /** Turns the upstream outcome into the response, as the tail of the `try`
      block and its `catch` do. */
  function Finish(upstream: Upstream): (r: Response)
    ensures r.headers == CorsHeaders && r.statusCode in Statuses
    ensures r.statusCode == 200 <==> upstream.Replied? && ExtractText(upstream.data).Ok?
    ensures r.statusCode == 200 ==> r.body == ReplyBody(ExtractText(upstream.data).value)
  {
    match upstream
    case Replied(data) =>
      (match ExtractText(data)
       case Ok(text) => Reply(200, ReplyBody(text))
       case Err(message) => ErrorResponse(None, message))
    case Failed(status, message) => ErrorResponse(status, message)
  }

  /** `exports.handler(event)` with the credential `env` and the upstream outcome
      it would meet if it called out. */
  function Handle(event: Event, env: Option<string>, upstream: Upstream): (r: Response)
    ensures r.headers == CorsHeaders
    ensures r.statusCode in Statuses
    ensures event.httpMethod == "OPTIONS" ==> r == Response(200, CorsHeaders, NoBody)
    ensures r.statusCode == 405 <==> event.httpMethod != "OPTIONS" && event.httpMethod != "POST"
    ensures r.statusCode == 405 ==> r.body == ErrorBody("Method not allowed")
    ensures r.statusCode == 400 <==>
              event.httpMethod == "POST" && PromptOf(event.body).Ok? && !Truthy(PromptOf(event.body).value)
    ensures r.statusCode == 400 ==> r.body == ErrorBody("Prompt is required")
    ensures r.statusCode == 401 <==> Gate(event, env).Forward? && upstream.Failed? && upstream.status == Some(401)
    ensures r.statusCode == 429 <==> Gate(event, env).Forward? && upstream.Failed? && upstream.status == Some(429)
    ensures r.statusCode == 404 <==> Gate(event, env).Forward? && upstream.Failed? && upstream.status == Some(404)
    ensures r.statusCode == 200 <==>
              || event.httpMethod == "OPTIONS"
              || (Gate(event, env).Forward? && upstream.Replied? && ExtractText(upstream.data).Ok?)
  {
    match Gate(event, env)
    case Respond(response) => response
    case Forward(_) => Finish(upstream)
  }
}

=== FILE: gateway_properties.dfy ===
/** Properties of the proxy handler that relate several inputs or pin down one
    rung of its ladder of checks. */
module GatewayProperties {
  import opened Wrappers
  import opened JsValues
  import opened Gateway

  /** A preflight request is answered the same way whatever its body, the
      credential state or the upstream service would do. */
  lemma PreflightIgnoresEverything(body: RequestBody, env: Option<string>, upstream: Upstream)
    ensures Handle(Event("OPTIONS", body), env, upstream) == Response(200, CorsHeaders, NoBody)
  {
  }

  /** Any method other than OPTIONS and POST is refused with 405 before the body is looked at. */
  lemma OtherMethodsRefused(m: string, body: RequestBody, env: Option<string>, upstream: Upstream)
    requires m != "OPTIONS" && m != "POST"
    ensures Handle(Event(m, body), env, upstream) == Response(405, CorsHeaders, ErrorBody("Method not allowed"))
  {
  }

  /** The prompt check comes before the credential check: a falsy prompt gets 400
      even when no credential is configured. */
  lemma MissingPromptBeforeMissingKey(body: RequestBody, env: Option<string>, upstream: Upstream)
    requires PromptOf(body).Ok? && !Truthy(PromptOf(body).value)
    ensures Handle(Event("POST", body), env, upstream) == Response(400, CorsHeaders, ErrorBody("Prompt is required"))
  {
  }

  /** `{}` as the body is a missing prompt. */
  lemma EmptyObjectIsMissingPrompt(env: Option<string>, upstream: Upstream)
    ensures Handle(Event("POST", Parsed(Object(map[]))), env, upstream).statusCode == 400
  {
  }

  /** With a prompt but no credential the handler answers 500 without calling
      upstream: the decision is made in `Gate`, and the upstream outcome cannot
      change the response. */
  lemma MissingKeyStopsBeforeUpstream(body: RequestBody, env: Option<string>, u1: Upstream, u2: Upstream)
    requires PromptOf(body).Ok? && Truthy(PromptOf(body).value) && !KeyConfigured(env)
    ensures Gate(Event("POST", body), env) == Respond(Response(500, CorsHeaders, ErrorBody("API key not configured")))
    ensures Handle(Event("POST", body), env, u1) == Handle(Event("POST", body), env, u2)
  {
  }

  /** Whenever the handler answers without forwarding, the upstream outcome is irrelevant. */
  lemma UpstreamOnlyMattersWhenForwarded(event: Event, env: Option<string>, u1: Upstream, u2: Upstream)
    requires Gate(event, env).Respond?
    ensures Handle(event, env, u1) == Handle(event, env, u2) == Gate(event, env).response
  {
  }

  /** A body `JSON.parse` rejects lands in the `catch` with no upstream status:
      500 with the parser's message. */
  lemma UnparseableBodyIsServerError(message: string, env: Option<string>, upstream: Upstream)
    ensures Handle(Event("POST", Unparseable(message)), env, upstream)
         == Response(500, CorsHeaders, ErrorBody(ServerErrorPrefix + message))
  {
  }

  /** The three upstream statuses the handler recognises keep their status; any
      other status, or none, becomes 500 "Server error: …". */
  lemma UpstreamStatusMapping(event: Event, env: Option<string>, status: Option<int>, message: string)
    requires Gate(event, env).Forward?
    ensures var r := Handle(event, env, Failed(status, message));
            && (status == Some(401) ==> r.body == ErrorBody("Invalid API key") && r.statusCode == 401)
            && (status == Some(429) ==> r.body == ErrorBody("Rate limit exceeded") && r.statusCode == 429)
            && (status == Some(404) ==> r.body == ErrorBody("Model not found") && r.statusCode == 404)
            && (status !in {Some(401), Some(429), Some(404)} ==>
                  r == Response(500, CorsHeaders, ErrorBody(ServerErrorPrefix + message)))
  {
  }

  /** A 500 answer is either the missing-credential answer or a server error. */
  lemma ServerErrorBodies(event: Event, env: Option<string>, upstream: Upstream)
    ensures var r := Handle(event, env, upstream);
            r.statusCode == 500 ==>
              r.body.ErrorBody? &&
              (r.body.error == "API key not configured" ||
               r.body.error[..|ServerErrorPrefix|] == ServerErrorPrefix)
  {
    var r := Handle(event, env, upstream);
    if r.statusCode == 500 && r.body.error != "API key not configured" {
      assert exists m :: r.body.error == ServerErrorPrefix + m;
    }
  }

  /** The usual reply shape: the first content block's `text` is returned with 200. */
  lemma ContentTextReturned(event: Event, env: Option<string>, blocks: seq<Json>, rest: map<string, Json>, t: Json)
    requires Gate(event, env).Forward?
    requires |blocks| > 0 && blocks[0].Object? && "text" in blocks[0].fields && blocks[0].fields["text"] == t
    ensures Handle(event, env, Replied(Object(rest["content" := Array(blocks)])))
         == Response(200, CorsHeaders, ReplyBody(Defined(t)))
  {
  }

  /** The legacy reply shape: a truthy `completion` is returned when `content` is
      absent or not an array, whatever the other fields. */
  lemma CompletionReturned(event: Event, env: Option<string>, rest: map<string, Json>, c: Json)
    requires Gate(event, env).Forward? && Truthy(Defined(c))
    requires !("content" in rest && rest["content"].Array?)
    ensures Handle(event, env, Replied(Object(rest["completion" := c])))
         == Response(200, CorsHeaders, ReplyBody(Defined(c)))
  {
  }

  /** Any other reply shape with a non-null `data` gets the fixed apology text with 200. */
  lemma UnrecognisedShapeFallsBack(event: Event, env: Option<string>, data: Json)
    requires Gate(event, env).Forward? && data != Null
    requires !(data.Object? && "content" in data.fields && data.fields["content"].Array?)
    requires !(data.Object? && "completion" in data.fields && Truthy(Defined(data.fields["completion"])))
    ensures Handle(event, env, Replied(data)) == Response(200, CorsHeaders, ReplyBody(Defined(Str(UnexpectedFormat))))
  {
  }

  /** An empty `content` array is not caught by the shape test: reading `text`
      from `content[0]` throws, whatever the other fields, and the answer is 500
      rather than the fallback text. */
  lemma EmptyContentIsServerError(event: Event, env: Option<string>, rest: map<string, Json>)
    requires Gate(event, env).Forward?
    ensures Handle(event, env, Replied(Object(rest["content" := Array([])])))
         == Response(500, CorsHeaders, ErrorBody(ServerErrorPrefix + ReadError("undefined", "text")))
  {
  }

  /** The forwarded request carries the configured credential and the client's prompt. */
  lemma ForwardCarriesKeyAndPrompt(body: RequestBody, key: string)
    requires key != [] && PromptOf(body).Ok? && Truthy(PromptOf(body).value)
    requires !ToStringThrows(PromptOf(body).value.json)
    ensures Gate(Event("POST", body), Some(key)).Forward?
    ensures Gate(Event("POST", body), Some(key)).request.apiKey == key
    ensures Gate(Event("POST", body), Some(key)).request.prompt == PromptOf(body).value
  {
  }

  /** A truthy prompt whose conversion to text throws is answered 500 with the
      TypeError's message before any upstream call, whatever the upstream would do. */
  lemma UnconvertiblePromptIsServerError(body: RequestBody, key: string, upstream: Upstream)
    requires key != [] && PromptOf(body).Ok? && Truthy(PromptOf(body).value)
    requires ToStringThrows(PromptOf(body).value.json)
    ensures Gate(Event("POST", body), Some(key)).Respond?
    ensures Handle(Event("POST", body), Some(key), upstream)
         == Response(500, CorsHeaders, ErrorBody(ServerErrorPrefix + ToPrimitiveError))
  {
  }

  /** `{"prompt": [x, {"toString": …, …}, y]}`: an object with its own `toString`
      anywhere in an array prompt makes the conversion throw. */
  lemma NestedToStringIsServerError(before: seq<Json>, fields: map<string, Json>, after: seq<Json>,
                                    key: string, upstream: Upstream)
    requires key != [] && "toString" in fields
    ensures var body := Parsed(Object(map["prompt" := Array(before + [Object(fields)] + after)]));
            Handle(Event("POST", body), Some(key), upstream)
              == Response(500, CorsHeaders, ErrorBody(ServerErrorPrefix + ToPrimitiveError))
  {
    var items := before + [Object(fields)] + after;
    assert ToStringThrows(items[|before|]);
  }
}

=== FILE: jsvalues.dfy ===
/** The values `JSON.parse` produces, JavaScript's truthiness on them, and the
    property reads the proxy performs on them. */
module JsValues {
  import opened Wrappers

  /** A JSON value as `JSON.parse` produced it. `Number(n)` holds the double the
      parser produced, as a real: a literal that underflows, such as `1e-400`,
      is `Number(0.0)` (falsy), and one that overflows, such as `1e400`, is held
      by some nonzero stand-in for the infinity (truthy). `JSON.parse` never
      yields NaN, and -0 compares equal to 0. */
  datatype Json =
    | Null
    | Bool(b: bool)
    | Number(n: real)
    | Str(s: string)
    | Array(items: seq<Json>)
    | Object(fields: map<string, Json>)

  /** A JavaScript value as the proxy sees it: `undefined`, or a JSON value. */
  datatype Value = Undefined | Defined(json: Json)

  /** JavaScript's ToBoolean: `undefined`, `null`, `false`, zero and the empty
      string are falsy; every array and object is truthy. */
  function Truthy(v: Value): (r: bool)
    ensures !r <==> v in {Undefined, Defined(Null), Defined(Bool(false)), Defined(Number(0.0)), Defined(Str([]))}
  {
    match v
    case Undefined => false
    case Defined(j) =>
      match j
      case Null => false
      case Bool(b) => b
      case Number(n) => n != 0.0
      case Str(s) => s != []
      case Array(_) => true
      case Object(_) => true
  }

  /** The message of the TypeError thrown when a property is read from
      `undefined` or `null` (the wording of the V8 engine). */
  function ReadError(receiver: string, key: string): string {
    "Cannot read properties of " + receiver + " (reading '" + key + "')"
  }

  /** `v[key]` for a property name `key` that no built-in prototype defines
      (the proxy reads only `prompt`, `content`, `completion` and `text`):
      reading from `undefined` or `null` throws, an object yields its own
      property or `undefined`, and any other value yields `undefined`. */
  function Read(v: Value, key: string): (r: Result<Value>)
    ensures r.Err? <==> v == Undefined || v == Defined(Null)
    ensures r.Ok? && v.json.Object? && key in v.json.fields ==> r.value == Defined(v.json.fields[key])
    ensures r.Ok? && !(v.json.Object? && key in v.json.fields) ==> r.value == Undefined
  {
    match v
    case Undefined => Err(ReadError("undefined", key))
    case Defined(Null) => Err(ReadError("null", key))
    case Defined(Object(fields)) => if key in fields then Ok(Defined(fields[key])) else Ok(Undefined)
    case Defined(_) => Ok(Undefined)
  }

  /** `items[0]`: the first element, or `undefined` for an empty array. */
  function First(items: seq<Json>): (r: Value)
    ensures r == Undefined <==> items == []
    ensures r != Undefined ==> r.json == items[0] && r.json in items
  {
    if |items| > 0 then Defined(items[0]) else Undefined
  }
}

=== FILE: text.dfy ===
/** JavaScript strings as sequences of characters: the whitespace class shared by
    `String.prototype.trim` and the regular-expression escape `\s`, prefix and
    suffix tests, trimming, and the "occurs inside" relation. */
module Text {

  /** The code points of ECMAScript's WhiteSpace and LineTerminator productions:
      exactly what `trim` removes and what `\s` matches. */
  predicate IsWhitespace(c: char) {
    || c == '\t' || c == '\n' || c == '\U{000B}' || c == '\U{000C}' || c == '\r'
    || c == ' ' || c == '\U{00A0}' || c == '\U{1680}'
    || ('\U{2000}' <= c <= '\U{200A}')
    || c == '\U{2028}' || c == '\U{2029}' || c == '\U{202F}' || c == '\U{205F}'
    || c == '\U{3000}' || c == '\U{FEFF}'
  }

  predicate AllWhitespace(s: string) {
    forall i | 0 <= i < |s| :: IsWhitespace(s[i])
  }

  /** `s.startsWith(p)` */
  predicate StartsWith(s: string, p: string) {
    |p| <= |s| && s[..|p|] == p
  }

  /** `s.endsWith(p)` */
  predicate EndsWith(s: string, p: string) {
    |p| <= |s| && s[|s| - |p|..] == p
  }

  /** `r` occurs in `s` at index `i`. */
  predicate InfixAt(r: string, s: string, i: nat) {
    i + |r| <= |s| && s[i..i + |r|] == r
  }

  /** `r` is a contiguous piece of `s`. */
  predicate IsInfix(r: string, s: string) {
    exists i: nat | i <= |s| :: InfixAt(r, s, i)
  }

  lemma InfixTransitive(a: string, b: string, c: string, i: nat, j: nat)
    requires InfixAt(a, b, i) && InfixAt(b, c, j)
    ensures InfixAt(a, c, i + j)
  {
    forall k | 0 <= k < |a|
      ensures c[i + j + k] == a[k]
    {
      assert a[k] == b[i + k] == c[j + i + k];
    }
  }

  /** Taking from a suffix is slicing the original. */
  lemma DropThenTake(s: string, i: nat, k: nat)
    requires i + k <= |s|
    ensures s[i..][..k] == s[i..i + k]
  {
  }

  /** A whitespace first character extends a whitespace prefix of the rest. */
  lemma WhitespacePrefixGrows(s: string, k: nat)
    requires 1 <= k <= |s| && IsWhitespace(s[0]) && AllWhitespace(s[1..][..k - 1])
    ensures AllWhitespace(s[..k])
  {
    forall i | 1 <= i < k
      ensures IsWhitespace(s[i])
    {
      assert s[1..][..k - 1][i - 1] == s[i];
    }
  }

  /** A whitespace last character extends a whitespace suffix of the rest. */
  lemma WhitespaceSuffixGrows(s: string, k: nat)
    requires k < |s| && IsWhitespace(s[|s| - 1]) && AllWhitespace(s[..|s| - 1][k..])
    ensures AllWhitespace(s[k..])
  {
    forall i | k <= i < |s| - 1
      ensures IsWhitespace(s[i])
    {
      assert s[..|s| - 1][k..][i - k] == s[i];
    }
  }

  /** The part of `s` left after removing its longest all-whitespace prefix. */
  function TrimStart(s: string): (r: string)
    ensures |r| <= |s| && r == s[|s| - |r|..]
    ensures AllWhitespace(s[..|s| - |r|])
    ensures r == [] || !IsWhitespace(r[0])
    decreases |s|
  {
    if |s| > 0 && IsWhitespace(s[0]) then
      var r := TrimStart(s[1..]);
      WhitespacePrefixGrows(s, |s| - |r|);
      r
    else s
  }

  /** The part of `s` left after removing its longest all-whitespace suffix. */
  function TrimEnd(s: string): (r: string)
    ensures |r| <= |s| && r == s[..|r|]
    ensures AllWhitespace(s[|r|..])
    ensures r == [] || !IsWhitespace(r[|r| - 1])
    decreases |s|
  {
    if |s| > 0 && IsWhitespace(s[|s| - 1]) then
      var r := TrimEnd(s[..|s| - 1]);
      WhitespaceSuffixGrows(s, |r|);
      r
    else s
  }

  /** `s.trim()` */
  function Trim(s: string): (r: string)
    ensures IsInfix(r, s) && |r| <= |s|
    ensures r == [] || (!IsWhitespace(r[0]) && !IsWhitespace(r[|r| - 1]))
    ensures r == [] <==> AllWhitespace(s)
  {
    var t := TrimStart(s);
    var r := TrimEnd(t);
    InfixTransitive(r, t, s, 0, |s| - |t|);
    TrimmedEmptyIffBlank(s, t, r);
    r
  }

  /** Nothing is left after trimming exactly when everything was whitespace. */
  lemma TrimmedEmptyIffBlank(s: string, t: string, r: string)
    requires t == TrimStart(s) && r == TrimEnd(t)
    ensures r == [] <==> AllWhitespace(s)
  {
    if r == [] {
      assert s[..|s|] == s;
    }
  }

  /** Trimming the front of whitespace followed by text that does not start with
      whitespace gives back that text. */
  lemma {:induction false} TrimStartPadded(w: string, x: string)
    requires AllWhitespace(w)
    requires x == [] || !IsWhitespace(x[0])
    ensures TrimStart(w + x) == x
    decreases |w|
  {
    if w != [] {
      assert (w + x)[1..] == w[1..] + x;
      TrimStartPadded(w[1..], x);
    }
  }

  /** Trimming the end of text followed by whitespace, where the text does not end
      with whitespace, gives back that text. */
  lemma {:induction false} TrimEndPadded(x: string, w: string)
    requires AllWhitespace(w)
    requires x == [] || !IsWhitespace(x[|x| - 1])
    ensures TrimEnd(x + w) == x
    decreases |w|
  {
    if w != [] {
      assert (x + w)[..|x + w| - 1] == x + w[..|w| - 1];
      TrimEndPadded(x, w[..|w| - 1]);
    }
  }

  /** `trim` undoes any whitespace padding of text that has no whitespace at
      either end. */
  lemma TrimPadded(w1: string, x: string, w2: string)
    requires AllWhitespace(w1) && AllWhitespace(w2)
    requires x == [] || (!IsWhitespace(x[0]) && !IsWhitespace(x[|x| - 1]))
    ensures Trim(w1 + x + w2) == x
  {
    if x == [] {
      assert w1 + x + w2 == w1 + w2;
      TrimStartPadded(w1 + w2, []);
      assert w1 + w2 + [] == w1 + w2;
    } else {
      assert w1 + x + w2 == w1 + (x + w2);
      TrimStartPadded(w1, x + w2);
      TrimEndPadded(x, w2);
    }
  }
}

=== FILE: wrappers.dfy ===
/** Option and Result, the two failure-carrying shapes the model needs. */
module Wrappers {

  /** A value that may be absent. */
  datatype Option<+T> = None | Some(value: T)

  /** The outcome of JavaScript code that may throw: the computed value, or the
      `message` of the error it threw. */
  datatype Result<+T> = Ok(value: T) | Err(message: string)
}
